=== FILE: README.md ===
# senti-quant core in Dafny

A model of the extract–score–load core of senti-quant, a news-sentiment
pipeline. The pipeline has four parts:

- **Scraper** (`scraper.dfy`). It turns fetched news pages into article
  records. It keeps an `<h1>` title and the paragraphs longer than 50
  characters joined by spaces. It rejects pages whose text is shorter than
  200 characters, and it derives the publishing domain from the URL.
- **Truth Engine** (`sentiment.dfy`). It scores a text. A heuristic "noise"
  probability penalises shouting (more than 15 % upper case) and hype (more
  than three `!`). The classifier's label is normalised to NEGATIVE / NEUTRAL
  / POSITIVE and mapped to -1 / 0 / 1. The integrity score is
  `scalar * (1 - noise)`.
- **Store** (`models.dfy`, `crud.dfy`). Three tables (news sources, articles,
  sentiment logs) with their primary keys, unique keys and foreign keys,
  the defaults of a new source and the 100-character width of a source's
  domain and name.
  `get_or_create_source` and `save_article` are written twice:
  - as functions of the database contents (`EnsureSource`, `Save`);
  - as methods of a `Session` class that update its tables in place. The
    methods are proved to agree with the functions.
- **Pipeline** (`pipeline.dfy`). The extract-and-load part of
  `run_pipeline`. It keeps the scrape results that are not `None`, saves
  them one by one, and counts the saves that returned True. The loop is the
  method `RunLoad`, proved against the fold `Load`.

The network, the HTML parser, the clock and the transformer classifier are
outside the model. What they produce is passed in as parameters:

- the fetch result, as an optional string;
- the parsed page, as a `ParsedPage` (the parser itself is a function
  argument);
- the current time, as a string;
- the classifier, as a function from text to label and score.

Store failures (an `IntegrityError` or any other exception inside
`save_article`) are a `Fault` value supplied per save.

## Model

| member | source | states |
|---|---|---|
| Sentiment.Truncate | src/analysis/sentiment.py:68 | the result is a prefix of the text: the whole text when it is no longer than 512 characters, otherwise exactly its first 512 characters |
| Sentiment.UpperCount | src/analysis/sentiment.py:46 | the number of upper-case characters never exceeds the text length |
| Sentiment.Occurrences | src/analysis/sentiment.py:50 | the `!` count is at most the length, and zero exactly when there is no `!` |
| Sentiment.NoiseProbability | src/analysis/sentiment.py:36-61 | the noise lies in [0, 1]; it is 1.0 for the empty text; otherwise it is one of 0.0, 0.3, 0.4, 0.7 |
| Sentiment.ClampNeverApplies | src/analysis/sentiment.py:60-61 | the sum of the penalties is at most 0.7, so the clamp `min(noise, 1.0)` never changes a non-empty text's noise |
| Sentiment.UpperRatioThreshold | src/analysis/sentiment.py:46-47 | the ratio test `upper / len > 0.15` holds exactly when `100 * upper > 15 * len` |
| Sentiment.RawNoise | src/analysis/sentiment.py:52-58 | the sum of the shouting and hype penalties before the clamp lies between 0 and 0.7 |
| Sentiment.NoiseTerms | src/analysis/sentiment.py:55-58 | the 0.4 penalty is present iff more than 15 % of the text is upper case; the 0.3 penalty iff there are more than three `!`; a calm text has noise 0 |
| Sentiment.NormalizeLabel | src/analysis/sentiment.py:77-88 | a raw label in the table maps to NEGATIVE, NEUTRAL or POSITIVE; any other label is upper-cased; the result has no lower-case letter |
| Sentiment.ToUpper | src/analysis/sentiment.py:88 | `raw_label.upper()`: the same length, no lower-case letter left, each lower-case letter replaced by its own upper-case form (`a` by `A`, …, `z` by `Z`) and every other character unchanged |
| Sentiment.CanonicalLabelsFixed | src/analysis/sentiment.py:77-88 | normalising NEGATIVE, NEUTRAL or POSITIVE leaves it unchanged |
| Sentiment.WordLabelsCaseInsensitive | src/analysis/sentiment.py:77-88 | a raw label that upper-cases to NEGATIVE, NEUTRAL or POSITIVE, in any letter case, is normalised to that word |
| Sentiment.TableAgreesWithUpper | src/analysis/sentiment.py:77-88 | a table key whose upper-case form is NEGATIVE, NEUTRAL or POSITIVE is mapped to that same word |
| Sentiment.MixedCaseGenericLabel | src/analysis/sentiment.py:84-88 | "Label_0" is not in the table: it becomes "LABEL_0" by upper-casing and then scores 0, not -1 |
| Sentiment.SentimentScalar | src/analysis/sentiment.py:94-95 | the scalar lies in -1..1; it is 1 exactly for POSITIVE and -1 exactly for NEGATIVE; every other label scores 0 |
| Sentiment.IntegrityScore | src/analysis/sentiment.py:97-98 | zero for a zero scalar or full noise; magnitude at most 1; the scalar's sign whenever noise is below 1 |
| Sentiment.Analyze | src/analysis/sentiment.py:63-105 | the classifier sees only the first 512 characters; the confidence is the classifier's score; the label is the normalised raw label; the noise is that of the truncated text |
| Sentiment.AnalysisBounds | src/analysis/sentiment.py:91-105 | noise in [0, 1] and integrity in [-1, 1]; integrity 0 for a neutral or unknown label and for empty text; otherwise integrity is positive iff POSITIVE and negative iff NEGATIVE |
| Sentiment.AnalyzeIgnoresTail | src/analysis/sentiment.py:67-68 | characters after the first 512 never change the analysis |
| Sentiment.HypeDiscounted | src/analysis/sentiment.py:55-61 | a shouting text with more than three `!` classified NEGATIVE gets noise 0.7 and integrity -0.3, with the confidence passed through |
| Sentiment.CalmNeutral | src/analysis/sentiment.py:94-98 | a calm text classified NEUTRAL gets noise 0 and integrity 0 |
| Scraper.KeptParagraphs | src/data/scraper.py:79-81 | every kept paragraph is longer than 50 characters, and there are no more kept paragraphs than paragraphs |
| Scraper.KeptParagraphsMembers | src/data/scraper.py:81 | a paragraph is kept exactly when it is on the page and longer than 50 characters |
| Scraper.KeptParagraphsAppend | src/data/scraper.py:81 | the filter keeps document order: filtering two pieces of a page and concatenating equals filtering the whole page |
| Scraper.Join | src/data/scraper.py:81 | `sep.join(parts)`: empty for no parts, the part itself for one part, and never shorter than its first part |
| Scraper.Content | src/data/scraper.py:81 | `content_text` is empty exactly when no paragraph is kept, and otherwise longer than 50 characters |
| Scraper.JoinLength | src/data/scraper.py:81 | joining adds exactly one separator between neighbouring parts, so `" ".join` adds one character per pair |
| Scraper.TotalLengthOfLongParts | src/data/scraper.py:81 | parts each longer than 50 characters total at least 51 per part |
| Scraper.ContentLength | src/data/scraper.py:81 | the content is empty when no paragraph is kept; otherwise its length is that of the kept paragraphs plus one separator between each pair |
| Scraper.FourLongParagraphsSuffice | src/data/scraper.py:84-86 | four kept paragraphs always pass the 200-character gate |
| Scraper.Find | src/data/scraper.py:89 | returns the first position at or after the start where the separator occurs, or none when it occurs nowhere |
| Scraper.Split | src/data/scraper.py:89 | `str.split` yields at least one piece, and no piece contains the separator; there is one piece exactly when the separator does not occur, and otherwise the first piece ends at the leftmost occurrence |
| Scraper.SplitJoin | src/data/scraper.py:89 | joining the pieces of a split with the separator gives back the original text |
| Scraper.Domain | src/data/scraper.py:89 | the derived domain never contains `/` |
| Scraper.DomainWithoutSeparator | src/data/scraper.py:89 | for a URL without `//`, the domain is its prefix up to the first `/` |
| Scraper.DomainSkipsFirstSeparator | src/data/scraper.py:89 | everything up to the first `//` is dropped before the domain is taken |
| Scraper.FirstSeparatorAfter | src/data/scraper.py:89 | when `pre + "/"` holds no `//`, the split finds the first `//` of `pre + "//" + rest` right after `pre` |
| Scraper.HostBeforePath | src/data/scraper.py:89 | with no `//` left, `host + path` has domain `host` |
| Scraper.DomainOfUrl | src/data/scraper.py:89 | an ordinary `scheme://host/path` URL has domain `host` |
| Scraper.EmbeddedUrlWins | src/data/scraper.py:89 | the domain is taken from the last piece of a left-to-right, non-overlapping `split("//")`: a URL embedding another URL in its path takes the embedded URL's domain |
| Scraper.TripleSlashEmptyDomain | src/data/scraper.py:89 | with three slashes after the scheme (`https:///x`), the split cuts at the first two and the domain is empty |
| Scraper.ParseHtml | src/data/scraper.py:62-97 | a record exists iff the page has an `<h1>` and its content reaches 200 characters; the record carries the URL, the title, the joined content, the derived domain and the parse time |
| Scraper.ScrapeUrl | src/data/scraper.py:103-108 | a missing or empty fetch result yields no record and the page is not parsed; otherwise the result is `parse_html`'s; every record keeps its URL and has at least 200 characters of content |
| Models.EmptyTables | src/data/models.py:10-47 | a freshly created schema has no rows and satisfies every constraint, including the 100-character width of `domain` and `name` |
| Models.TablesValid | src/data/models.py:10-47 | the store invariant: domains unique and names and domains at most 100 characters (lines 14-15), URLs unique (line 27), source and article ids increasing and below the next id, log ids unique (line 39), every article's source and every log's article present (lines 26, 40); in a valid database source ids and article ids are pairwise distinct, as primary keys are |
| Models.LogsMayRepeatArticle | src/data/models.py:40 | nothing makes `sentiment_logs.article_id` unique: a valid database can hold two logs for one article |
| Models.UniqueUrlsBound | src/data/models.py:27 | articles with pairwise different URLs drawn from a set are no more numerous than the set |
| Models.UrlNamesOneArticle | src/data/models.py:27 | under the unique-URL constraint, a stored URL belongs to exactly one article |
| Crud.FindSource | src/data/crud.py:14 | the lookup finds a source with the domain, or none exactly when no source has the domain |
| Crud.UrlStored | src/data/crud.py:33 | the duplicate lookup finds a row exactly when some stored article has the URL |
| Crud.NewSource | src/data/crud.py:17 | a new source takes the next id and the domain, has the domain as name, credibility 0.50 and is untrusted |
| Crud.EnsureSource | src/data/crud.py:9-21 | keeps every table constraint and leaves articles and logs alone; an existing domain returns its source and changes nothing; a new domain of at most 100 characters appends a source with the domain as name, credibility 0.50 and untrusted; a store failure, or a new domain longer than the `String(100)` column, returns nothing and changes nothing |
| Crud.EnsureSourceIdempotent | src/data/crud.py:9-21 | asking again for the same domain returns the same result and changes nothing |
| Crud.Save | src/data/crud.py:23-59 | keeps every table constraint and leaves the logs alone; returns True exactly when the store does not fail, the domain fits its 100-character column and the URL was not stored; on False the articles are unchanged |
| Crud.AppendArticleValid | src/data/crud.py:39-48 | inserting an article with the next id, a URL not stored and an existing source keeps every table constraint |
| Crud.SaveEffect | src/data/crud.py:38-50 | on True, exactly one article is appended: the next id, the domain's source id, the record's URL, title and content, and no published time |
| Crud.SaveSources | src/data/crud.py:28-30 | the source is ensured before the duplicate check, so the domain's source exists after a save even when the URL was a duplicate or the article commit failed (when the domain fits its column) |
| Crud.OverlongDomainNotSaved | src/data/crud.py:52-59 | a record whose domain is longer than 100 characters makes the source commit fail; the exception is caught, nothing changes and the save returns False |
| Crud.SaveUrls | src/data/crud.py:32-50 | a save adds the record's URL to the stored URLs exactly when it returns True, and appends at most one article |
| Crud.SaveTwice | src/data/crud.py:32-36 | saving the same record twice: the first call returns True exactly when the domain fits its column, the second returns False and adds nothing, and after a first True exactly one article carries the URL |
| Crud.Session.constructor | src/data/models.py:10-47 | a new session starts on the empty schema |
| Crud.Session.GetOrCreateSource | src/data/crud.py:9-21 | the session's tables and the returned source are those `EnsureSource` gives, and the constraints still hold; without failure and with a domain that fits, the source is in the table |
| Crud.Session.SaveArticle | src/data/crud.py:23-59 | the session's tables and the returned flag are those `Save` gives; True exactly when no failure, the domain fits and the URL is new; the logs are untouched |
| Pipeline.Collect | src/main.py:40 | keeps exactly the results that are not `None`, and never more items than results |
| Pipeline.CollectAppend | src/main.py:40 | the filter keeps the order of the results |
| Pipeline.ScrapeAll | src/main.py:35-37 | one result per target URL, in the order of the targets, each that of `scrape_url` |
| Pipeline.Load | src/main.py:50-53 | the save loop keeps every constraint and leaves the logs alone; it only appends articles; its count is the number of articles it added |
| Pipeline.LoadUrls | src/main.py:50-53 | the loop stores no URL other than those stored before and those of the items whose domain fits its column |
| Pipeline.LoadCountBound | src/main.py:50-53 | the count is at most the number of distinct URLs, of items whose domain fits, that were not stored before; and at most the number of distinct item URLs, itself at most the number of items |
| Pipeline.DuplicateCountedOnce | src/main.py:50-53 | when two items share a URL, fewer articles are counted than there are items |
| Pipeline.LoadStoresEveryUrl | src/main.py:50-53 | when no save fails, the URL of every item whose domain fits its column is stored after the loop |
| Pipeline.LoadOfStoredItems | src/main.py:50-53 | when every item's URL is already stored or its domain does not fit, the loop adds nothing and counts 0 |
| Pipeline.RerunAddsNothing | src/main.py:50-53 | running the pipeline again on the same records, after a run without failures, adds no article and counts 0 |
| Pipeline.RunLoad | src/main.py:50-53 | the loop over the session leaves exactly the tables and count of `Load`, and the constraints hold |
| Pipeline.RunPipeline | src/main.py:33-53 | scrape, filter and load together: the session ends as `Load` of the filtered scrape results, with that count; the k-th kept record is saved with the k-th of the faults given one per target |

## Left out

- Network fetch (`fetch_html`): its result is an input. A non-200 status, a timeout or a connection error all appear as `None`.
- HTML parsing (BeautifulSoup): the parser's output, the stripped `<h1>` text and the stripped `<p>` texts, is an input. An `<h1>` whose text is empty still counts as a title.
- The exception path of `parse_html` (lines 99-101) is not modelled. Apart from the parser, which is outside the model, nothing in the rules it applies can raise.
- Transformer model loading, device selection and inference: the classifier is a function parameter, and its confidence is passed through unchanged.
- Floating point: scores are exact reals. `0.15 < ratio` is therefore proved as an integer inequality, and `1.0 - 0.7` is exactly 0.3.
- Unicode: `str.isupper` and `str.upper` are modelled on the ASCII letters A to Z only.
- The source takes as domain the last piece of a left-to-right, non-overlapping `split("//")` of the URL, not the host after the scheme separator. The model follows the code: `Scraper.EmbeddedUrlWins` shows a URL embedded in the path winning, and `Scraper.TripleSlashEmptyDomain` shows that `https:///x` gives the empty domain, not `x`.
- Column widths: the rejection of a domain or name longer than 100 characters is that of PostgreSQL, which `src/data/database.py` connects to. `sentiment_logs.sentiment_label` (`String(20)`) is not checked, since no sentiment log is written.
- Crud.EnsureSource and Crud.OverlongDomainNotSaved treat every domain longer than 100 characters as rejected. PostgreSQL instead truncates silently a value whose excess characters are all spaces; such a domain (100 characters and then trailing spaces) would be stored truncated and the first save would return True, which the model does not capture.
- The `integrity_score` default of 0.0 (`src/data/models.py:44`) is only the constant `Models.DEFAULT_INTEGRITY`: no code in this core creates a sentiment log, so no operation applies it.
- Pipeline.ScrapeAll passes one `now` to every page, while each `parse_html` call reads the clock separately (`src/data/scraper.py:96`). Nothing downstream depends on it, since `save_article` does not store `published_at`.
- Timestamps set by the database (`created_at`, `scraped_at`, `analyzed_at`) and `datetime.now()` in `parse_html`: the latter is a parameter.
- Transactions, rollbacks and concurrent writers: a failure is a `Fault` value, and it leaves the table being written as it was. Races between sessions are not modelled.
- The concurrency of `asyncio.gather`: the scrapes are modelled as a sequence in target order, which is the order the results are returned in.
- Logging, `src/data/database.py` (`init_db`, `get_db`), the dashboard and the test scripts are not part of this model.
- Writing sentiment logs, an unprocessed-article queue and a scoring stage of the pipeline do not exist in the code and are not modelled.
- Sentiment.IntegrityScore: the sign and bound guarantees are stated for scalars in -1..1, which is every value `scalar_map.get` can return, rather than for any integer.

=== FILE: crud.dfy ===
/**
 * The store operations of src/data/crud.py: `get_or_create_source` and
 * `save_article`.
 *
 * `EnsureSource` and `Save` say, as functions of the database contents,
 * what one call does; the class `Session` holds the tables and its methods
 * change them step by step as the source does, proved to agree with those
 * functions.
 *
 * A store failure (an `IntegrityError` or any other exception raised by a
 * query or a commit) is an outcome the caller supplies: `fails` for
 * `get_or_create_source`, a `Fault` for `save_article`. A failed commit is
 * rolled back, so the table it was writing is left as it was.
 */
module Crud {
  import opened Wrappers
  import opened Models
  import opened Scraper

  /** Where, if anywhere, the store raises during one `save_article`. */
  datatype Fault =
    | NoFault
      /** Inside `get_or_create_source`: no source is added. */
    | SourceFault
      /** After the source is ensured (article lookup or article commit). */
    | ArticleFault

  /** `query(NewsSource).filter(domain == ...).first()`, as a position. */
  function FindSource(sources: seq<NewsSource>, domain: string): (r: Option<nat>)
    ensures r.Some? ==> r.value < |sources| && sources[r.value].domain == domain
    ensures r.None? <==> domain !in Domains(sources)
  {
    if sources == [] then None
    else if sources[|sources| - 1].domain == domain then Some(|sources| - 1)
    else FindSource(sources[..|sources| - 1], domain)
  }

  /** `query(Article).filter(url == ...).first()` found a row. */
  predicate UrlStored(articles: seq<Article>, url: string)
    ensures UrlStored(articles, url) <==> exists i :: 0 <= i < |articles| && articles[i].url == url
  {
    url in Urls(articles)
  }

  /** The source row `get_or_create_source` creates for a new domain. */
  function NewSource(id: nat, domain: string): (s: NewsSource)
    ensures s.id == id && s.domain == domain && s.name == s.domain
    ensures s.credibilityScore == DEFAULT_CREDIBILITY && !s.isTrusted
  {
    NewsSource(id, domain, domain, DEFAULT_CREDIBILITY, false)
  }

  /**
   * `get_or_create_source`: the existing source of the domain, or a new one
   * with the defaults; nothing when the store fails. A new domain longer
   * than its column makes the commit fail, which changes nothing.
   */
  function EnsureSource(t: Tables, domain: string, fails: bool): (r: (Tables, Option<NewsSource>))
    requires TablesValid(t)
    ensures TablesValid(r.0)
    ensures r.0.articles == t.articles && r.0.logs == t.logs
    ensures fails || !FitsColumn(domain) ==> r == (t, None)
    ensures !fails && FitsColumn(domain) ==>
              r.1.Some? && r.1.value.domain == domain && r.1.value.id in SourceIds(r.0.sources)
    ensures domain in Domains(t.sources) ==> r.0 == t
    ensures domain in Domains(t.sources) && !fails ==> r.1.value in t.sources
    ensures domain !in Domains(t.sources) && !fails && FitsColumn(domain) ==>
              && r.1.value == NewSource(t.nextSourceId, domain)
              && r.0.sources == t.sources + [r.1.value]
              && r.0.nextSourceId == t.nextSourceId + 1
  {
    if fails then (t, None)
    else match FindSource(t.sources, domain)
      case Some(k) =>
        assert t.sources[k].id in SourceIds(t.sources);
        (t, Some(t.sources[k]))
      case None =>
        if !FitsColumn(domain) then (t, None)
        else
          var created := NewSource(t.nextSourceId, domain);
          var t' := t.(sources := t.sources + [created], nextSourceId := t.nextSourceId + 1);
          SourcesAppend(t.sources, created);
          (t', Some(created))
  }

  /**
   * `save_article`: ensure the source, skip a URL already stored, otherwise
   * insert the article (without a published timestamp) unless the store
   * fails. True exactly when an article was inserted.
   */
  function Save(t: Tables, data: ScrapedData, fault: Fault): (r: (Tables, bool))
    requires TablesValid(t)
    ensures TablesValid(r.0)
    ensures r.1 <==> fault == NoFault && FitsColumn(data.sourceDomain) && data.url !in Urls(t.articles)
    ensures r.0.logs == t.logs
    ensures !r.1 ==> r.0.articles == t.articles
  {
    var (t1, source) := EnsureSource(t, data.sourceDomain, fault == SourceFault);
    if source.None? || UrlStored(t1.articles, data.url) || fault == ArticleFault then
      (t1, false)
    else
      var article := Article(t1.nextArticleId, source.value.id, data.url, data.title, data.content, None);
      var t2 := t1.(articles := t1.articles + [article], nextArticleId := t1.nextArticleId + 1);
      AppendArticleValid(t1, article);
      (t2, true)
  }

  /** Appending a row with the next id, a new URL and an existing source keeps the constraints. */
  lemma AppendArticleValid(t: Tables, article: Article)
    requires TablesValid(t)
    requires article.id == t.nextArticleId
    requires article.url !in Urls(t.articles)
    requires article.sourceId in SourceIds(t.sources)
    ensures TablesValid(t.(articles := t.articles + [article], nextArticleId := t.nextArticleId + 1))
  {
    ArticlesAppend(t.articles, article);
  }

  /**
   * The articles after a save: unchanged when it returns False, otherwise
   * the new row appended, linked to the domain's source and without a
   * published timestamp.
   */
  lemma SaveEffect(t: Tables, data: ScrapedData, fault: Fault)
    requires TablesValid(t)
    ensures !Save(t, data, fault).1 ==> Save(t, data, fault).0.nextArticleId == t.nextArticleId
    ensures Save(t, data, fault).1 ==>
              && Save(t, data, fault).0.articles
                 == t.articles + [Article(t.nextArticleId, EnsureSource(t, data.sourceDomain, false).1.value.id,
                                          data.url, data.title, data.content, None)]
              && Save(t, data, fault).0.nextArticleId == t.nextArticleId + 1
  {
  }

  /**
   * The sources after a save: those `get_or_create_source` leaves, or the
   * old ones when it failed.
   */
  lemma SaveSources(t: Tables, data: ScrapedData, fault: Fault)
    requires TablesValid(t)
    ensures Save(t, data, fault).0.sources
            == if fault == SourceFault then t.sources else EnsureSource(t, data.sourceDomain, false).0.sources
    ensures fault != SourceFault && FitsColumn(data.sourceDomain) ==>
              data.sourceDomain in Domains(Save(t, data, fault).0.sources)
  {
    if fault != SourceFault && FitsColumn(data.sourceDomain) && data.sourceDomain !in Domains(t.sources) {
      SourcesAppend(t.sources, EnsureSource(t, data.sourceDomain, false).1.value);
    }
  }

  /** One save adds its URL to the stored URLs exactly when it returns True. */
  lemma SaveUrls(t: Tables, data: ScrapedData, fault: Fault)
    requires TablesValid(t)
    ensures var r := Save(t, data, fault);
            && t.articles <= r.0.articles
            && r.0.articles[|t.articles|..] == (if r.1 then [r.0.articles[|t.articles|]] else [])
            && (r.1 ==> r.0.articles[|t.articles|].url == data.url)
            && Urls(r.0.articles) == Urls(t.articles) + (if r.1 then {data.url} else {})
  {
    var r := Save(t, data, fault);
    if r.1 {
      ArticlesAppend(t.articles, r.0.articles[|t.articles|]);
    }
  }

  /**
   * A record whose domain does not fit its column is never saved: the
   * source commit fails, and the save returns False and changes nothing.
   */
  lemma OverlongDomainNotSaved(t: Tables, data: ScrapedData, fault: Fault)
    requires TablesValid(t)
    requires !FitsColumn(data.sourceDomain)
    ensures Save(t, data, fault) == (t, false)
  {
  }

  /**
   * After a save in which the store does not fail, the URL is stored,
   * whether it was before or not, provided its domain fits the column.
   */
  lemma SaveStoresUrl(t: Tables, data: ScrapedData)
    requires TablesValid(t)
    ensures Urls(t.articles) + (if FitsColumn(data.sourceDomain) then {data.url} else {})
            <= Urls(Save(t, data, NoFault).0.articles)
  {
    SaveUrls(t, data, NoFault);
  }

  /** Asking twice for the same domain gives the same source and changes nothing more. */
  lemma EnsureSourceIdempotent(t: Tables, domain: string)
    requires TablesValid(t)
    ensures var (t1, s1) := EnsureSource(t, domain, false);
            EnsureSource(t1, domain, false) == (t1, s1)
  {
    if FitsColumn(domain) {
      var (t1, s1) := EnsureSource(t, domain, false);
      if domain in Domains(t.sources) {
        assert t1 == t;
      } else {
        var n := |t.sources|;
        assert t1.sources[n] == s1.value;
        assert FindSource(t1.sources, domain) == Some(n);
      }
    }
  }

  /**
   * Saving the same article twice: the first call stores it (when its domain
   * fits the column), the second is skipped and stores nothing, and one
   * article carries the URL afterwards.
   */
  lemma SaveTwice(t: Tables, data: ScrapedData, fault: Fault)
    requires TablesValid(t)
    requires data.url !in Urls(t.articles)
    ensures var (t1, first) := Save(t, data, NoFault);
            var (t2, second) := Save(t1, data, fault);
            && first == FitsColumn(data.sourceDomain) && !second
            && t2.articles == t1.articles
            && (first ==>
                  exists k :: 0 <= k < |t2.articles| && t2.articles[k].url == data.url
                              && forall j :: 0 <= j < |t2.articles| && t2.articles[j].url == data.url ==> j == k)
  {
    var (t1, first) := Save(t, data, NoFault);
    if first {
      ArticlesAppend(t.articles, t1.articles[|t.articles|]);
      assert data.url in Urls(t1.articles);
      var (t2, second) := Save(t1, data, fault);
      assert !second;
      UrlNamesOneArticle(t2.articles, data.url);
    }
  }

  /** The database a session writes to. */
  class Session {
    var sources: seq<NewsSource>
    var articles: seq<Article>
    var logs: seq<SentimentLog>
    var nextSourceId: nat
    var nextArticleId: nat

    /** The session's tables as one value. */
    function Contents(): Tables
      reads this
    {
      Tables(sources, articles, logs, nextSourceId, nextArticleId)
    }

    ghost predicate Valid()
      reads this
    {
      TablesValid(Contents())
    }

    /** A freshly created schema. */
    constructor ()
      ensures Valid() && Contents() == EmptyTables()
    {
      sources, articles, logs := [], [], [];
      nextSourceId, nextArticleId := FIRST_ID, FIRST_ID;
    }

    method GetOrCreateSource(domain: string, fails: bool) returns (source: Option<NewsSource>)
      requires Valid()
      modifies this
      ensures (Contents(), source) == EnsureSource(old(Contents()), domain, fails)
      ensures Valid()
      ensures !fails && FitsColumn(domain) ==> source.Some? && source.value.domain == domain && source.value in sources
      ensures articles == old(articles) && logs == old(logs)
    {
      if fails {
        return None;
      }
      var found := FindSource(sources, domain);
      if found.Some? {
        return Some(sources[found.value]);
      }
      if !FitsColumn(domain) {
        return None;
      }
      var created := NewSource(nextSourceId, domain);
      sources := sources + [created];
      nextSourceId := nextSourceId + 1;
      source := Some(created);
    }

    method SaveArticle(data: ScrapedData, fault: Fault) returns (saved: bool)
      requires Valid()
      modifies this
      ensures (Contents(), saved) == Save(old(Contents()), data, fault)
      ensures Valid()
      ensures saved <==> fault == NoFault && FitsColumn(data.sourceDomain) && data.url !in Urls(old(articles))
      ensures !saved ==> articles == old(articles)
      ensures logs == old(logs)
    {
      var source := GetOrCreateSource(data.sourceDomain, fault == SourceFault);
      if source.None? {
        return false;
      }
      if UrlStored(articles, data.url) {
        return false;
      }
      if fault == ArticleFault {
        return false;
      }
      articles := articles + [Article(nextArticleId, source.value.id, data.url, data.title, data.content, None)];
      nextArticleId := nextArticleId + 1;
      saved := true;
    }
  }
}

=== FILE: models.dfy ===
/**
 * The three tables of src/data/models.py as row datatypes, the contents of
 * a database as one value, and the schema's constraints as a validity
 * predicate over that value.
 *
 * Timestamps filled in by the database (`created_at`, `scraped_at`,
 * `analyzed_at`) are not modelled. Ids are handed out by a per-table
 * counter, so a new row's id is larger than every id before it.
 */
module Models {
  import opened Wrappers

  /** `NewsSource.credibility_score` when none is given. */
  const DEFAULT_CREDIBILITY: real := 0.50

  /** `SentimentLog.integrity_score` when none is given (no log is written in this model). */
  const DEFAULT_INTEGRITY: real := 0.0

  /** The width of `news_sources.domain` and `news_sources.name` (`String(100)`). */
  const MAX_DOMAIN: nat := 100

  /** The first id each table hands out. */
  const FIRST_ID: nat := 1

  /** A row of `news_sources`. */
  datatype NewsSource = NewsSource(
    id: nat,
    domain: string,
    name: string,
    credibilityScore: real,
    isTrusted: bool)

  /** A row of `articles`; `publishedAt` may be NULL. */
  datatype Article = Article(
    id: nat,
    sourceId: nat,
    url: string,
    title: string,
    content: string,
    publishedAt: Option<string>)

  /** A row of `sentiment_logs`. */
  datatype SentimentLog = SentimentLog(
    id: nat,
    articleId: nat,
    sentimentScore: real,
    sentimentLabel: string,
    confidence: real,
    integrityScore: real)

  /** The rows of the three tables, and the next id of each table. */
  datatype Tables = Tables(
    sources: seq<NewsSource>,
    articles: seq<Article>,
    logs: seq<SentimentLog>,
    nextSourceId: nat,
    nextArticleId: nat)

  /** A database with the schema created and no rows. */
  function EmptyTables(): (t: Tables)
    ensures TablesValid(t)
    ensures t.sources == [] && t.articles == [] && t.logs == []
  {
    Tables([], [], [], FIRST_ID, FIRST_ID)
  }

  function Domains(sources: seq<NewsSource>): set<string>
  {
    set i | 0 <= i < |sources| :: sources[i].domain
  }

  function SourceIds(sources: seq<NewsSource>): set<nat>
  {
    set i | 0 <= i < |sources| :: sources[i].id
  }

  function Urls(articles: seq<Article>): set<string>
  {
    set i | 0 <= i < |articles| :: articles[i].url
  }

  function ArticleIds(articles: seq<Article>): set<nat>
  {
    set i | 0 <= i < |articles| :: articles[i].id
  }

  lemma SourcesAppend(sources: seq<NewsSource>, source: NewsSource)
    ensures Domains(sources + [source]) == Domains(sources) + {source.domain}
    ensures SourceIds(sources + [source]) == SourceIds(sources) + {source.id}
  {
    var all := sources + [source];
    assert all[|sources|] == source;
    assert forall i :: 0 <= i < |sources| ==> all[i] == sources[i];
  }

  lemma ArticlesAppend(articles: seq<Article>, article: Article)
    ensures Urls(articles + [article]) == Urls(articles) + {article.url}
    ensures ArticleIds(articles + [article]) == ArticleIds(articles) + {article.id}
  {
    var all := articles + [article];
    assert all[|articles|] == article;
    assert forall i :: 0 <= i < |articles| ==> all[i] == articles[i];
  }

  /** A value fits a `String(100)` column; the database rejects a longer one. */
  predicate FitsColumn(value: string)
  {
    |value| <= MAX_DOMAIN
  }

  /** `sentiment_logs.id` is the primary key: no two logs share it. */
  predicate UniqueLogIds(logs: seq<SentimentLog>)
  {
    forall i, j :: 0 <= i < j < |logs| ==> logs[i].id != logs[j].id
  }

  /** Every stored domain and name fits its column. */
  predicate SourceColumnsFit(sources: seq<NewsSource>)
  {
    forall i :: 0 <= i < |sources| ==> FitsColumn(sources[i].domain) && FitsColumn(sources[i].name)
  }

  /** `news_sources.domain` is UNIQUE. */
  predicate UniqueDomains(sources: seq<NewsSource>)
  {
    forall i, j :: 0 <= i < j < |sources| ==> sources[i].domain != sources[j].domain
  }

  /** `articles.url` is UNIQUE. */
  predicate UniqueUrls(articles: seq<Article>)
  {
    forall i, j :: 0 <= i < j < |articles| ==> articles[i].url != articles[j].url
  }

  /** Source ids grow in insertion order and stay below the next id. */
  predicate SourceIdsIssued(sources: seq<NewsSource>, next: nat)
  {
    && (forall i, j :: 0 <= i < j < |sources| ==> sources[i].id < sources[j].id)
    && (forall i :: 0 <= i < |sources| ==> sources[i].id < next)
  }

  /** Article ids grow in insertion order and stay below the next id. */
  predicate ArticleIdsIssued(articles: seq<Article>, next: nat)
  {
    && (forall i, j :: 0 <= i < j < |articles| ==> articles[i].id < articles[j].id)
    && (forall i :: 0 <= i < |articles| ==> articles[i].id < next)
  }

  /** The schema's constraints: column widths, unique keys, primary keys and foreign keys. */
  predicate TablesValid(t: Tables)
    ensures TablesValid(t) ==>
              forall i, j :: 0 <= i < j < |t.sources| ==> t.sources[i].id != t.sources[j].id
    ensures TablesValid(t) ==>
              forall i, j :: 0 <= i < j < |t.articles| ==> t.articles[i].id != t.articles[j].id
  {
    && UniqueDomains(t.sources)
    && SourceColumnsFit(t.sources)
    && SourceIdsIssued(t.sources, t.nextSourceId)
    && UniqueUrls(t.articles)
    && ArticleIdsIssued(t.articles, t.nextArticleId)
    && (forall i :: 0 <= i < |t.articles| ==> t.articles[i].sourceId in SourceIds(t.sources))
    && (forall i :: 0 <= i < |t.logs| ==> t.logs[i].articleId in ArticleIds(t.articles))
    && UniqueLogIds(t.logs)
  }

  /**
   * Nothing in the schema makes `sentiment_logs.article_id` unique: a valid
   * database can hold two logs for one article.
   */
  lemma LogsMayRepeatArticle()
    ensures exists t :: TablesValid(t) && |t.logs| == 2 && t.logs[0].articleId == t.logs[1].articleId
  {
    var source := NewsSource(1, "example.com", "example.com", DEFAULT_CREDIBILITY, false);
    var article := Article(1, 1, "https://example.com/a", "A", "text", None);
    var log1 := SentimentLog(1, 1, 1.0, "POSITIVE", 0.9, DEFAULT_INTEGRITY);
    var log2 := SentimentLog(2, 1, -1.0, "NEGATIVE", 0.8, DEFAULT_INTEGRITY);
    var t := Tables([source], [article], [log1, log2], 2, 2);
    assert t.sources[0].id in SourceIds(t.sources);
    assert t.articles[0].id in ArticleIds(t.articles);
    assert TablesValid(t);
  }

  /**
   * Articles with pairwise different URLs, all drawn from `urls`, are no
   * more numerous than `urls`.
   */
  lemma {:induction false} UniqueUrlsBound(articles: seq<Article>, urls: set<string>)
    requires UniqueUrls(articles)
    requires Urls(articles) <= urls
    ensures |articles| <= |urls|
  {
    if articles != [] {
      var n := |articles| - 1;
      var init := articles[..n];
      var last := articles[n].url;
      assert Urls(init) <= urls - {last} by {
        forall i | 0 <= i < |init| ensures init[i].url in urls - {last} {
          assert init[i] == articles[i];
        }
      }
      UniqueUrlsBound(init, urls - {last});
    }
  }

  lemma UniqueUrlsSuffix(articles: seq<Article>, m: nat)
    requires UniqueUrls(articles)
    requires m <= |articles|
    ensures UniqueUrls(articles[m..])
  {
    forall i, j | 0 <= i < j < |articles| - m
      ensures articles[m..][i].url != articles[m..][j].url
    {
      assert articles[m..][i] == articles[m + i];
      assert articles[m..][j] == articles[m + j];
    }
  }

  /**
   * The URLs of a table split at any row: those before it and those from it
   * on, which share no URL when URLs are unique.
   */
  lemma UrlsSplit(articles: seq<Article>, m: nat)
    requires m <= |articles|
    ensures Urls(articles) == Urls(articles[..m]) + Urls(articles[m..])
    ensures UniqueUrls(articles) ==> Urls(articles[..m]) !! Urls(articles[m..])
  {
    forall i | 0 <= i < |articles| ensures articles[i].url in Urls(articles[..m]) + Urls(articles[m..]) {
      if i < m {
        assert articles[..m][i] == articles[i];
      } else {
        assert articles[m..][i - m] == articles[i];
      }
    }
    forall i | 0 <= i < m ensures articles[..m][i].url in Urls(articles) {
      assert articles[..m][i] == articles[i];
    }
    forall i | 0 <= i < |articles| - m ensures articles[m..][i].url in Urls(articles) {
      assert articles[m..][i] == articles[m + i];
    }
    if UniqueUrls(articles) {
      forall u | u in Urls(articles[..m]) ensures u !in Urls(articles[m..]) {
        var i :| 0 <= i < m && articles[..m][i].url == u;
        assert articles[..m][i] == articles[i];
        forall j | 0 <= j < |articles| - m ensures articles[m..][j].url != u {
          assert articles[m..][j] == articles[m + j];
        }
      }
    }
  }

  /** Under unique URLs, a present URL belongs to exactly one article. */
  lemma UrlNamesOneArticle(articles: seq<Article>, url: string)
    requires UniqueUrls(articles)
    requires url in Urls(articles)
    ensures exists k :: 0 <= k < |articles| && articles[k].url == url
                        && forall j :: 0 <= j < |articles| && articles[j].url == url ==> j == k
  {
    var k :| 0 <= k < |articles| && articles[k].url == url;
    assert forall j :: 0 <= j < |articles| && articles[j].url == url ==> j == k;
  }
}

=== FILE: pipeline.dfy ===
/**
 * The extract-and-load part of `run_pipeline` in src/main.py: scrape every
 * target URL, keep the results that are not `None`, save them one by one
 * and count the saves that returned True.
 *
 * The concurrent fetch is the sequence of fetch results, one per URL, and
 * the store's failures are one `Fault` per save, both given by the caller.
 */
module Pipeline {
  import opened Wrappers
  import opened Models
  import opened Scraper
  import opened Crud

  /** `[r for r in results if r is not None]`. */
  function Collect(results: seq<Option<ScrapedData>>): (scraped: seq<ScrapedData>)
    ensures |scraped| <= |results|
    ensures forall d :: d in scraped <==> Some(d) in results
  {
    if results == [] then []
    else (match results[0] case Some(d) => [d] case None => []) + Collect(results[1..])
  }

  /** The filter goes through the results in order and keeps their order. */
  lemma {:induction false} CollectAppend(a: seq<Option<ScrapedData>>, b: seq<Option<ScrapedData>>)
    ensures Collect(a + b) == Collect(a) + Collect(b)
  {
    if a == [] {
      assert a + b == b;
    } else {
      var head := match a[0] case Some(d) => [d] case None => [];
      assert (a + b)[0] == a[0] && (a + b)[1..] == a[1..] + b;
      assert Collect(a + b) == head + Collect(a[1..] + b);
      CollectAppend(a[1..], b);
    }
  }

  /** `scrape_url` for every target, in the order of the targets. */
  function ScrapeAll(urls: seq<string>, fetched: seq<Option<string>>, soup: string -> ParsedPage, now: string)
    : (results: seq<Option<ScrapedData>>)
    requires |fetched| == |urls|
    ensures |results| == |urls|
    ensures forall i :: 0 <= i < |urls| ==> results[i] == ScrapeUrl(fetched[i], urls[i], soup, now)
  {
    seq(|urls|, i requires 0 <= i < |urls| => ScrapeUrl(fetched[i], urls[i], soup, now))
  }

  function UrlSet(items: seq<ScrapedData>): set<string>
  {
    set i | 0 <= i < |items| :: items[i].url
  }

  /** The URLs of the items whose domain fits the source column: the only ones a save can store. */
  function FittingUrls(items: seq<ScrapedData>): set<string>
  {
    set i | 0 <= i < |items| && FitsColumn(items[i].sourceDomain) :: items[i].url
  }

  /**
   * The load loop: `save_article` on each item in list order, counting the
   * calls that returned True.
   */
  function Load(t: Tables, items: seq<ScrapedData>, faults: seq<Fault>): (r: (Tables, nat))
    requires TablesValid(t)
    requires |faults| == |items|
    ensures TablesValid(r.0)
    ensures r.0.logs == t.logs
    ensures t.articles <= r.0.articles
    ensures r.1 == |r.0.articles| - |t.articles|
    decreases |items|
  {
    if items == [] then (t, 0)
    else
      var n := |items| - 1;
      var p := Load(t, items[..n], faults[..n]);
      var s := Save(p.0, items[n], faults[n]);
      (s.0, if s.1 then p.1 + 1 else p.1)
  }

  /** `Load` on a list extended by one item: the loop so far, then one save. */
  lemma LoadSnoc(t: Tables, init: seq<ScrapedData>, item: ScrapedData, faults: seq<Fault>, fault: Fault)
    requires TablesValid(t)
    requires |faults| == |init|
    ensures Load(t, init + [item], faults + [fault]).0 == Save(Load(t, init, faults).0, item, fault).0
    ensures Load(t, init + [item], faults + [fault]).1
            == Load(t, init, faults).1 + if Save(Load(t, init, faults).0, item, fault).1 then 1 else 0
  {
    assert (init + [item])[..|init|] == init;
    assert (faults + [fault])[..|init|] == faults;
  }

  lemma TakeOneMore<T>(s: seq<T>, i: nat)
    requires i < |s|
    ensures s[..i + 1] == s[..i] + [s[i]]
  {
  }

  lemma TakeAll<T>(s: seq<T>)
    ensures s[..|s|] == s
  {
  }

  /** `Load` over the first `i + 1` items: the loop over the first `i`, then one save. */
  lemma LoadStep(t: Tables, items: seq<ScrapedData>, faults: seq<Fault>, i: nat)
    requires TablesValid(t)
    requires |faults| == |items|
    requires i < |items|
    ensures Load(t, items[..i + 1], faults[..i + 1]).0
            == Save(Load(t, items[..i], faults[..i]).0, items[i], faults[i]).0
    ensures Load(t, items[..i + 1], faults[..i + 1]).1
            == Load(t, items[..i], faults[..i]).1 + if Save(Load(t, items[..i], faults[..i]).0, items[i], faults[i]).1 then 1 else 0
  {
    TakeOneMore(items, i);
    TakeOneMore(faults, i);
    LoadSnoc(t, items[..i], items[i], faults[..i], faults[i]);
  }

  lemma UrlSetLast(items: seq<ScrapedData>)
    requires items != []
    ensures UrlSet(items) == UrlSet(items[..|items| - 1]) + {items[|items| - 1].url}
  {
    var n := |items| - 1;
    assert forall i :: 0 <= i < n ==> items[..n][i] == items[i];
  }

  lemma FittingUrlsStep(items: seq<ScrapedData>, k: nat)
    requires k < |items|
    ensures FittingUrls(items[..k + 1])
            == FittingUrls(items[..k]) + if FitsColumn(items[k].sourceDomain) then {items[k].url} else {}
  {
    assert forall i :: 0 <= i < k ==> items[..k + 1][i] == items[..k][i];
  }

  lemma SubsetSize<T>(a: set<T>, b: set<T>)
    requires a <= b
    ensures |a| <= |b|
  {
    assert b == a + (b - a);
  }

  lemma {:induction false} LoadUrlsPrefix(t: Tables, items: seq<ScrapedData>, faults: seq<Fault>, k: nat)
    requires TablesValid(t)
    requires |faults| == |items|
    requires k <= |items|
    ensures Urls(Load(t, items[..k], faults[..k]).0.articles) <= Urls(t.articles) + FittingUrls(items[..k])
    decreases k
  {
    if k > 0 {
      LoadUrlsPrefix(t, items, faults, k - 1);
      var before := Load(t, items[..k - 1], faults[..k - 1]).0;
      LoadStep(t, items, faults, k - 1);
      SaveUrls(before, items[k - 1], faults[k - 1]);
      var item := items[k - 1];
      assert Urls(Save(before, item, faults[k - 1]).0.articles)
             <= Urls(before.articles) + if FitsColumn(item.sourceDomain) then {item.url} else {};
      FittingUrlsStep(items, k - 1);
    }
  }

  /**
   * The loop stores no URL other than those stored before and those of the
   * items whose domain fits the source column.
   */
  lemma LoadUrls(t: Tables, items: seq<ScrapedData>, faults: seq<Fault>)
    requires TablesValid(t)
    requires |faults| == |items|
    ensures Urls(Load(t, items, faults).0.articles) <= Urls(t.articles) + FittingUrls(items)
  {
    LoadUrlsPrefix(t, items, faults, |items|);
    assert items[..|items|] == items && faults[..|items|] == faults;
  }

  /**
   * The count is at most the number of distinct item URLs that were not
   * stored before and whose domain fits the column: items sharing a URL are
   * counted at most once, and an item whose URL was stored is not counted.
   */
  lemma LoadCountBound(t: Tables, items: seq<ScrapedData>, faults: seq<Fault>)
    requires TablesValid(t)
    requires |faults| == |items|
    ensures Load(t, items, faults).1 <= |FittingUrls(items) - Urls(t.articles)|
    ensures Load(t, items, faults).1 <= |UrlSet(items)| <= |items|
  {
    var all := Load(t, items, faults).0.articles;
    var m := |t.articles|;
    assert all[..m] == t.articles;
    LoadUrls(t, items, faults);
    UrlsSplit(all, m);
    UniqueUrlsSuffix(all, m);
    UniqueUrlsBound(all[m..], FittingUrls(items) - Urls(t.articles));
    SubsetSize(FittingUrls(items) - Urls(t.articles), UrlSet(items));
    UrlSetSize(items);
  }

  lemma {:induction false} UrlSetSize(items: seq<ScrapedData>)
    ensures |UrlSet(items)| <= |items|
  {
    if items != [] {
      var n := |items| - 1;
      UrlSetSize(items[..n]);
      UrlSetLast(items);
    }
  }

  /** Dropping an item whose URL another item carries leaves the URL set as it is. */
  lemma UrlSetWithoutDuplicate(items: seq<ScrapedData>, i: nat, j: nat)
    requires i < j < |items|
    requires items[i].url == items[j].url
    ensures UrlSet(items) == UrlSet(items[..j] + items[j + 1..])
  {
    var rest := items[..j] + items[j + 1..];
    forall k | 0 <= k < |items| ensures items[k].url in UrlSet(rest) {
      if k < j {
        assert rest[k] == items[k];
      } else if k == j {
        assert rest[i] == items[i];
      } else {
        assert rest[k - 1] == items[k];
      }
    }
    forall k | 0 <= k < |rest| ensures rest[k].url in UrlSet(items) {
      if k < j {
        assert rest[k] == items[k];
      } else {
        assert rest[k] == items[k + 1];
      }
    }
  }

  /**
   * When two items carry the same URL, fewer articles are counted than there
   * are items. `LoadCountBound` gives the sharper bound of one count per
   * distinct URL.
   */
  lemma DuplicateCountedOnce(t: Tables, items: seq<ScrapedData>, faults: seq<Fault>, i: nat, j: nat)
    requires TablesValid(t)
    requires |faults| == |items|
    requires i < j < |items|
    requires items[i].url == items[j].url
    ensures Load(t, items, faults).1 < |items|
  {
    LoadCountBound(t, items, faults);
    UrlSetWithoutDuplicate(items, i, j);
    UrlSetSize(items[..j] + items[j + 1..]);
  }

  lemma {:induction false} LoadStoresPrefix(t: Tables, items: seq<ScrapedData>, faults: seq<Fault>, k: nat)
    requires TablesValid(t)
    requires |faults| == |items|
    requires forall i :: 0 <= i < |faults| ==> faults[i] == NoFault
    requires k <= |items|
    ensures FittingUrls(items[..k]) <= Urls(Load(t, items[..k], faults[..k]).0.articles)
    decreases k
  {
    if k > 0 {
      LoadStoresPrefix(t, items, faults, k - 1);
      var before := Load(t, items[..k - 1], faults[..k - 1]).0;
      LoadStep(t, items, faults, k - 1);
      SaveStoresUrl(before, items[k - 1]);
      FittingUrlsStep(items, k - 1);
    }
  }

  /**
   * When no save fails, the URL of every item whose domain fits the column
   * is stored after the loop.
   */
  lemma LoadStoresEveryUrl(t: Tables, items: seq<ScrapedData>, faults: seq<Fault>)
    requires TablesValid(t)
    requires |faults| == |items|
    requires forall i :: 0 <= i < |faults| ==> faults[i] == NoFault
    ensures FittingUrls(items) <= Urls(Load(t, items, faults).0.articles)
  {
    LoadStoresPrefix(t, items, faults, |items|);
    assert items[..|items|] == items && faults[..|items|] == faults;
  }

  /**
   * When every item's URL is already stored or its domain does not fit the
   * column, the loop adds nothing and counts 0.
   */
  lemma LoadOfStoredItems(t: Tables, items: seq<ScrapedData>, faults: seq<Fault>)
    requires TablesValid(t)
    requires |faults| == |items|
    requires FittingUrls(items) <= Urls(t.articles)
    ensures Load(t, items, faults).1 == 0
    ensures Load(t, items, faults).0.articles == t.articles
  {
    LoadCountBound(t, items, faults);
    assert FittingUrls(items) - Urls(t.articles) == {};
  }

  /**
   * Running the load loop again over the same items, after a run in which
   * no save failed, adds no article and counts 0.
   */
  lemma RerunAddsNothing(t: Tables, items: seq<ScrapedData>, faults: seq<Fault>, again: seq<Fault>)
    requires TablesValid(t)
    requires |faults| == |items| && |again| == |items|
    requires forall i :: 0 <= i < |faults| ==> faults[i] == NoFault
    ensures var (t1, _) := Load(t, items, faults);
            Load(t1, items, again).1 == 0 && Load(t1, items, again).0.articles == t1.articles
  {
    var (t1, _) := Load(t, items, faults);
    LoadStoresEveryUrl(t, items, faults);
    LoadOfStoredItems(t1, items, again);
  }

  /** The loop of `run_pipeline` (lines 50-53), on the session's tables. */
  method RunLoad(session: Session, scraped: seq<ScrapedData>, faults: seq<Fault>) returns (successCount: nat)
    requires session.Valid()
    requires |faults| == |scraped|
    modifies session
    ensures session.Contents() == Load(old(session.Contents()), scraped, faults).0
    ensures successCount == Load(old(session.Contents()), scraped, faults).1
    ensures session.Valid()
  {
    ghost var t0 := session.Contents();
    successCount := 0;
    var i := 0;
    while i < |scraped|
      invariant 0 <= i <= |scraped|
      invariant session.Valid()
      invariant session.Contents() == Load(t0, scraped[..i], faults[..i]).0
      invariant successCount == Load(t0, scraped[..i], faults[..i]).1
    {
      LoadStep(t0, scraped, faults, i);
      var saved := session.SaveArticle(scraped[i], faults[i]);
      if saved {
        successCount := successCount + 1;
      }
      i := i + 1;
    }
    TakeAll(scraped);
    TakeAll(faults);
  }

  /**
   * Extract and load: scrape each target, keep the records, then run the
   * load loop on them. The k-th kept record is saved with fault `faults[k]`;
   * there are never more kept records than targets.
   */
  method RunPipeline(session: Session, urls: seq<string>, fetched: seq<Option<string>>,
                     soup: string -> ParsedPage, now: string, faults: seq<Fault>)
    returns (successCount: nat)
    requires session.Valid()
    requires |fetched| == |urls|
    requires |faults| == |urls|
    modifies session
    ensures var scraped := Collect(ScrapeAll(urls, fetched, soup, now));
            (session.Contents(), successCount) == Load(old(session.Contents()), scraped, faults[..|scraped|])
    ensures session.Valid()
  {
    var results := ScrapeAll(urls, fetched, soup, now);
    var scraped := Collect(results);
    successCount := RunLoad(session, scraped, faults[..|scraped|]);
  }
}

=== FILE: scraper.dfy ===
/**
 * The extraction rules of src/data/scraper.py: `parse_html` over what the
 * HTML parser found on a page, the domain rule, and `scrape_url`.
 *
 * The HTML parser itself is not modelled: its output is the input
 * `ParsedPage`, the stripped text of the first `<h1>` (if there is one) and
 * the stripped texts of the `<p>` elements in document order. The fetch
 * result is an optional string and the clock reading is a parameter.
 */
module Scraper {
  import opened Wrappers

  /** A paragraph is kept when its stripped text is longer than this. */
  const MIN_PARAGRAPH: nat := 50

  /** Content shorter than this is rejected. */
  const MIN_CONTENT: nat := 200

  /** `ScrapedData`: one extracted article. */
  datatype ScrapedData = ScrapedData(
    url: string,
    title: string,
    content: string,
    publishedAt: Option<string>,
    sourceDomain: string)

  /** What the HTML parser found on one page. */
  datatype ParsedPage = ParsedPage(h1: Option<string>, paragraphs: seq<string>)

  // ---------------------------------------------------------------------
  // Paragraph filter and join

  /** The paragraphs longer than MIN_PARAGRAPH, in document order. */
  function KeptParagraphs(ps: seq<string>): (kept: seq<string>)
    ensures |kept| <= |ps|
    ensures forall i :: 0 <= i < |kept| ==> |kept[i]| > MIN_PARAGRAPH
  {
    if ps == [] then []
    else (if |ps[0]| > MIN_PARAGRAPH then [ps[0]] else []) + KeptParagraphs(ps[1..])
  }

  /** A paragraph is kept exactly when it is on the page and longer than MIN_PARAGRAPH. */
  lemma {:induction false} KeptParagraphsMembers(ps: seq<string>, p: string)
    ensures p in KeptParagraphs(ps) <==> p in ps && |p| > MIN_PARAGRAPH
  {
    if ps != [] {
      KeptParagraphsMembers(ps[1..], p);
      assert ps == [ps[0]] + ps[1..];
    }
  }

  /** The filter works paragraph by paragraph, so it keeps document order. */
  lemma {:induction false} KeptParagraphsAppend(a: seq<string>, b: seq<string>)
    ensures KeptParagraphs(a + b) == KeptParagraphs(a) + KeptParagraphs(b)
  {
    if a == [] {
      assert a + b == b;
    } else {
      assert (a + b)[1..] == a[1..] + b;
      KeptParagraphsAppend(a[1..], b);
    }
  }

  function TotalLength(parts: seq<string>): nat
  {
    if parts == [] then 0 else |parts[0]| + TotalLength(parts[1..])
  }

  /** Joining adds one separator between neighbouring parts and nothing else. */
  lemma {:induction false} JoinLength(parts: seq<string>, sep: string)
    requires parts != []
    ensures |Join(parts, sep)| == TotalLength(parts) + (|parts| - 1) * |sep|
  {
    if |parts| > 1 {
      JoinLength(parts[1..], sep);
    }
  }

  /** Parts that are each longer than MIN_PARAGRAPH are at least that long together. */
  lemma {:induction false} TotalLengthOfLongParts(parts: seq<string>)
    requires forall i :: 0 <= i < |parts| ==> |parts[i]| > MIN_PARAGRAPH
    ensures TotalLength(parts) >= (MIN_PARAGRAPH + 1) * |parts|
  {
    if parts != [] {
      TotalLengthOfLongParts(parts[1..]);
    }
  }

  /** The article text: the kept paragraphs joined by single spaces. */
  function Content(ps: seq<string>): (c: string)
    ensures c == "" <==> KeptParagraphs(ps) == []
    ensures KeptParagraphs(ps) != [] ==> |c| > MIN_PARAGRAPH
  {
    Join(KeptParagraphs(ps), " ")
  }

  /**
   * The content has no text from dropped paragraphs: with no long paragraph
   * it is empty, and otherwise its length is exactly that of the kept
   * paragraphs plus one separator between each pair.
   */
  lemma ContentLength(ps: seq<string>)
    ensures KeptParagraphs(ps) == [] ==> Content(ps) == ""
    ensures KeptParagraphs(ps) != [] ==>
              |Content(ps)| == TotalLength(KeptParagraphs(ps)) + |KeptParagraphs(ps)| - 1
  {
    if KeptParagraphs(ps) != [] {
      JoinLength(KeptParagraphs(ps), " ");
    }
  }

  /** Four kept paragraphs always pass the length gate (4 * 51 + 3 >= 200). */
  lemma FourLongParagraphsSuffice(ps: seq<string>)
    requires |KeptParagraphs(ps)| >= 4
    ensures |Content(ps)| >= MIN_CONTENT
  {
    ContentLength(ps);
    TotalLengthOfLongParts(KeptParagraphs(ps));
  }

  // ---------------------------------------------------------------------
  // Python's str.split with a non-empty separator

  /** `sep` occurs in `s` starting at position `i`. */
  predicate OccursAt(s: string, sep: string, i: nat)
  {
    i + |sep| <= |s| && s[i..i + |sep|] == sep
  }

  /** `sep` occurs nowhere in `s`. */
  predicate Free(s: string, sep: string)
  {
    forall i :: 0 <= i <= |s| ==> !OccursAt(s, sep, i)
  }

  /** The first position at or after `from` where `sep` occurs (`str.find`). */
  function Find(s: string, sep: string, from: nat): (r: Option<nat>)
    requires from <= |s|
    ensures r.Some? ==> from <= r.value <= |s| && OccursAt(s, sep, r.value)
    ensures r.Some? ==> forall j :: from <= j < r.value ==> !OccursAt(s, sep, j)
    ensures r.None? ==> forall j :: from <= j <= |s| ==> !OccursAt(s, sep, j)
    decreases |s| - from
  {
    if OccursAt(s, sep, from) then Some(from)
    else if from == |s| then None
    else Find(s, sep, from + 1)
  }

  /** The text before the first occurrence of `sep` holds no occurrence of it. */
  lemma PrefixBeforeFirstIsFree(s: string, sep: string, i: nat)
    requires sep != []
    requires i <= |s|
    requires forall j :: 0 <= j < i ==> !OccursAt(s, sep, j)
    ensures Free(s[..i], sep)
  {
    forall j | 0 <= j <= i
      ensures !OccursAt(s[..i], sep, j)
    {
      if j + |sep| <= i {
        assert s[..i][j..j + |sep|] == s[j..j + |sep|];
        assert !OccursAt(s, sep, j);
      }
    }
  }

  /**
   * `s.split(sep)`: cut at the first occurrence, then go on after it, so
   * occurrences are found left to right without overlapping.
   */
  function Split(s: string, sep: string): (parts: seq<string>)
    requires sep != []
    ensures |parts| >= 1
    ensures forall k :: 0 <= k < |parts| ==> Free(parts[k], sep)
    ensures Find(s, sep, 0).None? <==> |parts| == 1
    ensures Find(s, sep, 0).Some? ==> |parts[0]| == Find(s, sep, 0).value
    decreases |s|
  {
    match Find(s, sep, 0)
    case None => assert s[..|s|] == s; PrefixBeforeFirstIsFree(s, sep, |s|); [s]
    case Some(i) =>
      PrefixBeforeFirstIsFree(s, sep, i);
      [s[..i]] + Split(s[i + |sep|..], sep)
  }

  /** `sep.join(parts)`. */
  function Join(parts: seq<string>, sep: string): (r: string)
    ensures parts == [] ==> r == ""
    ensures parts != [] ==> |r| >= |parts[0]|
    ensures |parts| == 1 ==> r == parts[0]
  {
    if parts == [] then ""
    else if |parts| == 1 then parts[0]
    else parts[0] + sep + Join(parts[1..], sep)
  }

  lemma JoinCons(first: string, rest: seq<string>, sep: string)
    requires rest != []
    ensures Join([first] + rest, sep) == first + sep + Join(rest, sep)
  {
    assert ([first] + rest)[1..] == rest;
  }

  lemma CutTwice<T>(s: seq<T>, i: nat, j: nat)
    requires i <= j <= |s|
    ensures s == s[..i] + s[i..j] + s[j..]
  {
  }

  lemma CutAtOccurrence(s: string, sep: string, i: nat)
    requires OccursAt(s, sep, i)
    ensures s == s[..i] + sep + s[i + |sep|..]
  {
    CutTwice(s, i, i + |sep|);
  }

  /** Splitting loses nothing: joining the pieces gives the text back. */
  lemma {:induction false} SplitJoin(s: string, sep: string)
    requires sep != []
    ensures Join(Split(s, sep), sep) == s
    decreases |s|
  {
    var found := Find(s, sep, 0);
    if found.Some? {
      var i := found.value;
      var rest := s[i + |sep|..];
      assert Split(s, sep) == [s[..i]] + Split(rest, sep);
      SplitJoin(rest, sep);
      JoinCons(s[..i], Split(rest, sep), sep);
      CutAtOccurrence(s, sep, i);
    } else {
      assert Split(s, sep) == [s];
    }
  }

  function Last<T>(xs: seq<T>): T
    requires xs != []
  {
    xs[|xs| - 1]
  }

  // ---------------------------------------------------------------------
  // The domain rule

  /** `url.split("//")[-1].split("/")[0]`. */
  function Domain(url: string): (d: string)
    ensures '/' !in d
  {
    var d := Split(Last(Split(url, "//")), "/")[0];
    forall k | 0 <= k < |d| ensures d[k] != '/' {
      assert d[k..k + 1] == [d[k]];
      assert !OccursAt(d, "/", k);
    }
    d
  }

  /**
   * For a text with no `/`, `split("/")[0]` is the text up to the first
   * `/`: a prefix free of `/`, followed by `/` or by the end.
   */
  lemma FirstSlashPiece(s: string)
    ensures Split(s, "/")[0] <= s
    ensures |Split(s, "/")[0]| < |s| ==> s[|Split(s, "/")[0]|] == '/'
  {
    match Find(s, "/", 0)
    case None => assert s[..|s|] == s;
    case Some(i) => assert s[i..i + 1] == "/";
  }

  /** A URL without `//` has as domain its prefix up to the first `/`. */
  lemma DomainWithoutSeparator(url: string)
    requires Free(url, "//")
    ensures Domain(url) <= url
    ensures |Domain(url)| < |url| ==> url[|Domain(url)|] == '/'
  {
    match Find(url, "//", 0)
    case None =>
      assert url[..|url|] == url;
      FirstSlashPiece(url);
    case Some(i) =>
  }

  /** No two neighbouring characters are both `/`. */
  lemma NoDoubleSlash(s: string)
    requires forall j :: 0 <= j < |s| - 1 ==> s[j] != '/' || s[j + 1] != '/'
    ensures Free(s, "//")
  {
    forall j | 0 <= j <= |s|
      ensures !OccursAt(s, "//", j)
    {
      if j + 2 <= |s| {
        assert s[j..j + 2] == [s[j], s[j + 1]];
      }
    }
  }

  /**
   * Everything up to and including the first `//` is discarded: the domain
   * of `pre + "//" + rest` is the domain of `rest`, provided the first `//`
   * is the one after `pre`.
   */
  lemma DomainSkipsFirstSeparator(pre: string, rest: string)
    requires Free(pre + "/", "//")
    ensures Domain(pre + "//" + rest) == Domain(rest)
  {
    var s := pre + "//" + rest;
    FirstSeparatorAfter(pre, rest);
    assert s[|pre| + 2..] == rest;
    assert Split(s, "//") == [s[..|pre|]] + Split(rest, "//");
  }

  /** When `pre + "/"` holds no `//`, the first `//` of `pre + "//" + rest` is the one after `pre`. */
  lemma FirstSeparatorAfter(pre: string, rest: string)
    requires Free(pre + "/", "//")
    ensures Find(pre + "//" + rest, "//", 0) == Some(|pre|)
  {
    var s := pre + "//" + rest;
    assert OccursAt(s, "//", |pre|) by {
      assert s[|pre|..|pre| + 2] == "//";
    }
    forall j | 0 <= j < |pre|
      ensures !OccursAt(s, "//", j)
    {
      assert s[j..j + 2] == (pre + "/")[j..j + 2];
      assert !OccursAt(pre + "/", "//", j);
    }
  }

  /** A host free of `/` followed by a path that starts with `/` holds no `//`
      beyond those in the path. */
  lemma HostPathFree(host: string, path: string)
    requires '/' !in host
    requires path == [] || path[0] == '/'
    requires Free(path, "//")
    ensures Free(host + path, "//")
  {
    var rest := host + path;
    forall j | 0 <= j <= |rest|
      ensures !OccursAt(rest, "//", j)
    {
      if j + 2 <= |rest| {
        if j < |host| {
          assert rest[j..j + 2][0] == host[j];
        } else {
          assert rest[j..j + 2] == path[j - |host|..j - |host| + 2];
          assert !OccursAt(path, "//", j - |host|);
        }
      }
    }
  }

  /** The domain of `host + path` with no `//` in it is `host`. */
  lemma HostBeforePath(host: string, path: string)
    requires '/' !in host
    requires path == [] || path[0] == '/'
    requires Free(host + path, "//")
    ensures Domain(host + path) == host
  {
    var rest := host + path;
    DomainWithoutSeparator(rest);
    var d := Domain(rest);
    SlashFreePrefixUnique(rest, d, host);
    assert d == rest[..|d|];
  }

  /** A string has only one prefix that is free of `/` and followed by `/` or the end. */
  lemma SlashFreePrefixUnique(s: string, p: string, q: string)
    requires p <= s && q <= s
    requires '/' !in p && '/' !in q
    requires |p| < |s| ==> s[|p|] == '/'
    requires |q| < |s| ==> s[|q|] == '/'
    ensures p == q
  {
    assert forall k :: 0 <= k < |p| ==> s[k] == p[k] && s[k] != '/';
    assert forall k :: 0 <= k < |q| ==> s[k] == q[k] && s[k] != '/';
    assert |p| == |q|;
  }

  /** An ordinary URL `scheme://host/path` has `host` as its domain. */
  lemma DomainOfUrl(scheme: string, host: string, path: string)
    requires '/' !in scheme && '/' !in host
    requires path == [] || path[0] == '/'
    requires Free(path, "//")
    ensures Domain(scheme + "//" + host + path) == host
  {
    NoDoubleSlash(scheme + "/");
    assert scheme + "//" + host + path == scheme + "//" + (host + path);
    DomainSkipsFirstSeparator(scheme, host + path);
    HostPathFree(host, path);
    HostBeforePath(host, path);
  }

  /**
   * The domain comes from the last piece of the split, not from the host
   * after the scheme: a URL that embeds another URL after a path segment
   * takes the embedded one's domain.
   */
  lemma EmbeddedUrlWins(scheme: string, host: string, segment: string, inner: string)
    requires '/' !in scheme && '/' !in host && '/' !in segment
    requires segment != []
    ensures Domain(scheme + "//" + host + "/" + segment + "//" + inner) == Domain(inner)
  {
    NoDoubleSlash(scheme + "/");
    var mid := host + "/" + segment;
    NoDoubleSlash(mid + "/");
    assert scheme + "//" + host + "/" + segment + "//" + inner
        == scheme + "//" + (mid + "//" + inner);
    DomainSkipsFirstSeparator(scheme, mid + "//" + inner);
    DomainSkipsFirstSeparator(mid, inner);
  }

  /**
   * Three slashes after the scheme: the split cuts at the first two, so the
   * last piece starts with the third `/` and the domain is empty, not the
   * host after the slashes.
   */
  lemma TripleSlashEmptyDomain(scheme: string, rest: string)
    requires '/' !in scheme
    requires Free("/" + rest, "//")
    ensures Domain(scheme + "///" + rest) == ""
  {
    NoDoubleSlash(scheme + "/");
    assert scheme + "///" + rest == scheme + "//" + ("/" + rest);
    DomainSkipsFirstSeparator(scheme, "/" + rest);
    DomainWithoutSeparator("/" + rest);
  }

  // ---------------------------------------------------------------------
  // parse_html and scrape_url

  /**
   * `parse_html`: no record without an `<h1>` or with content shorter than
   * MIN_CONTENT; otherwise the record of the page, stamped with `now`.
   */
  function ParseHtml(page: ParsedPage, url: string, now: string): (r: Option<ScrapedData>)
    ensures r.Some? <==> page.h1.Some? && |Content(page.paragraphs)| >= MIN_CONTENT
    ensures r.Some? ==>
              && r.value.url == url
              && r.value.title == page.h1.value
              && r.value.content == Content(page.paragraphs)
              && |r.value.content| >= MIN_CONTENT
              && r.value.sourceDomain == Domain(url)
              && '/' !in r.value.sourceDomain
              && r.value.publishedAt == Some(now)
  {
    match page.h1
    case None => None
    case Some(title) =>
      var content := Content(page.paragraphs);
      if |content| < MIN_CONTENT then None
      else Some(ScrapedData(url, title, content, Some(now), Domain(url)))
  }

  /**
   * `scrape_url`: an absent or empty fetch result gives no record and the
   * page is not parsed; otherwise the result is that of `parse_html`.
   * `soup` stands for the HTML parser.
   */
  function ScrapeUrl(fetched: Option<string>, url: string, soup: string -> ParsedPage, now: string)
    : (r: Option<ScrapedData>)
    ensures fetched == None || fetched == Some("") ==> r == None
    ensures fetched != None && fetched != Some("") ==> r == ParseHtml(soup(fetched.value), url, now)
    ensures r.Some? ==> r.value.url == url && |r.value.content| >= MIN_CONTENT
  {
    if fetched.Some? && fetched.value != "" then ParseHtml(soup(fetched.value), url, now) else None
  }
}

=== FILE: sentiment.dfy ===
/**
 * The Truth Engine (`TruthEngineAI` in src/analysis/sentiment.py).
 *
 * A text is scored for "noise" (shouting and exclamation marks), the
 * classifier's label is normalised to NEGATIVE / NEUTRAL / POSITIVE, the
 * label is mapped to a scalar in {-1, 0, 1}, and the integrity score
 * discounts that scalar by the noise: `scalar * (1 - noise)`.
 *
 * The transformer classifier is an opaque function handed in by the caller.
 * Scores are exact reals rather than floating point; "upper case" means the
 * ASCII letters A to Z.
 */
module Sentiment {

  /** Only the first MAX_INPUT characters are ever classified or scored. */
  const MAX_INPUT: nat := 512

  /** More than this fraction of upper-case characters counts as shouting. */
  const UPPER_RATIO_LIMIT: real := 0.15
  const UPPER_PENALTY: real := 0.4

  /** More than this many `!` characters counts as hype. */
  const EXCLAMATION_LIMIT: nat := 3
  const EXCLAMATION_PENALTY: real := 0.3

  /** The noise of an empty text, and the clamp applied to any other text. */
  const MAX_NOISE: real := 1.0

  const NEGATIVE: string := "NEGATIVE"
  const NEUTRAL: string := "NEUTRAL"
  const POSITIVE: string := "POSITIVE"

  /** The classifier's raw labels that have a fixed normalised form. */
  const LABEL_MAP: map<string, string> := map[
    "LABEL_0" := NEGATIVE,
    "LABEL_1" := NEUTRAL,
    "LABEL_2" := POSITIVE,
    "negative" := NEGATIVE,
    "neutral" := NEUTRAL,
    "positive" := POSITIVE,
    "label_0" := NEGATIVE,
    "label_1" := NEUTRAL,
    "label_2" := POSITIVE
  ]

  /** Normalised labels and their scalar; any other label scores 0. */
  const SCALAR_MAP: map<string, int> := map[NEGATIVE := -1, NEUTRAL := 0, POSITIVE := 1]

  /** What the external classifier returns for one text. */
  datatype Classification = Classification(rawLabel: string, score: real)

  /** The dictionary returned by `analyze`. */
  datatype Analysis = Analysis(
    sentimentLabel: string,
    confidence: real,
    noiseProbability: real,
    integrityScore: real)

  // ---------------------------------------------------------------------
  // Characters and counting

  predicate IsUpper(c: char) { 'A' <= c <= 'Z' }

  predicate IsLower(c: char) { 'a' <= c <= 'z' }

  function UpperChar(c: char): char
  {
    if IsLower(c) then (c as int - 32) as char else c
  }

  /** `str.upper()` on ASCII text. */
  function ToUpper(s: string): (r: string)
    ensures |r| == |s|
    ensures forall i :: 0 <= i < |s| ==> !IsLower(r[i])
    ensures forall i :: 0 <= i < |s| && IsLower(s[i]) ==> IsUpper(r[i])
    ensures forall i :: 0 <= i < |s| && IsLower(s[i]) ==> r[i] as int - 'A' as int == s[i] as int - 'a' as int
    ensures forall i :: 0 <= i < |s| && !IsLower(s[i]) ==> r[i] == s[i]
  {
    seq(|s|, i requires 0 <= i < |s| => UpperChar(s[i]))
  }

  /** The number of upper-case characters of `s`. */
  function UpperCount(s: string): (n: nat)
    ensures n <= |s|
  {
    if s == [] then 0 else (if IsUpper(s[0]) then 1 else 0) + UpperCount(s[1..])
  }

  /** The number of occurrences of `c` in `s` (`len(re.findall(c, s))`). */
  function Occurrences(s: string, c: char): (n: nat)
    ensures n <= |s|
    ensures n == 0 <==> c !in s
  {
    if s == [] then 0 else (if s[0] == c then 1 else 0) + Occurrences(s[1..], c)
  }

  function ExclamationCount(s: string): nat
  {
    Occurrences(s, '!')
  }

  /** `text[:512]`. */
  function Truncate(text: string): (t: string)
    ensures |t| <= MAX_INPUT
    ensures t <= text
    ensures |text| <= MAX_INPUT ==> t == text
    ensures |text| > MAX_INPUT ==> |t| == MAX_INPUT
  {
    if |text| <= MAX_INPUT then text else text[..MAX_INPUT]
  }

  // ---------------------------------------------------------------------
  // Noise estimator (`_calculate_noise_probability`)

  /** `uppercase_count / len(text)` for a non-empty text. */
  function UpperRatio(text: string): real
    requires text != []
  {
    UpperCount(text) as real / |text| as real
  }

  /** The sum of the two penalties, before the clamp. */
  function RawNoise(text: string): (r: real)
    requires text != []
    ensures 0.0 <= r <= UPPER_PENALTY + EXCLAMATION_PENALTY
  {
    (if UpperRatio(text) > UPPER_RATIO_LIMIT then UPPER_PENALTY else 0.0)
    + (if ExclamationCount(text) > EXCLAMATION_LIMIT then EXCLAMATION_PENALTY else 0.0)
  }

  function Min(a: real, b: real): real { if a <= b then a else b }

  /** The noise probability of a text: 1.0 when it is empty. */
  function NoiseProbability(text: string): (noise: real)
    ensures 0.0 <= noise <= MAX_NOISE
    ensures text == [] ==> noise == MAX_NOISE
    ensures text != [] ==> noise in {0.0, 0.3, 0.4, 0.7}
  {
    if text == [] then MAX_NOISE else Min(RawNoise(text), MAX_NOISE)
  }

  /** The clamp to 1.0 never changes the score of a non-empty text. */
  lemma ClampNeverApplies(text: string)
    requires text != []
    ensures RawNoise(text) <= 0.7 < MAX_NOISE
    ensures NoiseProbability(text) == RawNoise(text)
  {
  }

  /** The real-valued ratio test is the integer test `100 * upper > 15 * len`. */
  lemma UpperRatioThreshold(text: string)
    requires text != []
    ensures UpperRatio(text) > UPPER_RATIO_LIMIT <==> 100 * UpperCount(text) > 15 * |text|
  {
    RatioAbove(UpperCount(text), |text|);
  }

  /** `u / n > 0.15` is `100 * u > 15 * n` for a positive `n`. */
  lemma RatioAbove(u: int, n: int)
    requires n > 0
    ensures u as real / n as real > UPPER_RATIO_LIMIT <==> 100 * u > 15 * n
  {
    var r := u as real / n as real;
    assert r * n as real == u as real;
    ScaleByPositive(r, UPPER_RATIO_LIMIT, n as real);
  }

  /** Multiplying both sides by a positive number keeps a strict order. */
  lemma ScaleByPositive(a: real, b: real, n: real)
    requires n > 0.0
    ensures a > b <==> a * n > b * n
  {
    if a > b {
      assert a * n - b * n == (a - b) * n;
    } else {
      assert b * n - a * n == (b - a) * n;
    }
  }

  /**
   * Each penalty is present exactly when its condition holds: the 0.4 term
   * for shouting, the 0.3 term for more than three `!`, and neither for a
   * calm text.
   */
  lemma NoiseTerms(text: string)
    requires text != []
    ensures NoiseProbability(text) in {0.4, 0.7} <==> 100 * UpperCount(text) > 15 * |text|
    ensures NoiseProbability(text) in {0.3, 0.7} <==> ExclamationCount(text) > EXCLAMATION_LIMIT
    ensures 100 * UpperCount(text) <= 15 * |text| && ExclamationCount(text) <= EXCLAMATION_LIMIT
            ==> NoiseProbability(text) == 0.0
  {
    UpperRatioThreshold(text);
  }

  // ---------------------------------------------------------------------
  // Labels and scalars

  /** `label_map.get(raw_label, raw_label.upper())`. */
  function NormalizeLabel(raw: string): (std: string)
    ensures raw in LABEL_MAP ==> std in {NEGATIVE, NEUTRAL, POSITIVE}
    ensures raw !in LABEL_MAP ==> std == ToUpper(raw)
    ensures forall i :: 0 <= i < |std| ==> !IsLower(std[i])
  {
    if raw in LABEL_MAP then LABEL_MAP[raw] else ToUpper(raw)
  }

  /** The three normalised labels are left as they are. */
  lemma CanonicalLabelsFixed(std: string)
    requires std in {NEGATIVE, NEUTRAL, POSITIVE}
    ensures NormalizeLabel(std) == std
  {
    assert std !in LABEL_MAP;
    assert ToUpper(std) == std;
  }

  /**
   * A word label is recognised in any letter case: whatever uppercases to
   * NEGATIVE, NEUTRAL or POSITIVE is normalised to it.
   */
  lemma WordLabelsCaseInsensitive(raw: string, word: string)
    requires word in {NEGATIVE, NEUTRAL, POSITIVE}
    requires ToUpper(raw) == word
    ensures NormalizeLabel(raw) == word
  {
    if raw in LABEL_MAP {
      TableAgreesWithUpper(raw);
    }
  }

  /**
   * A table key that upper-cases to a word label is mapped to that word:
   * the generic keys start with `L`, and the three word keys are told
   * apart by their length and first letter.
   */
  lemma TableAgreesWithUpper(k: string)
    requires k in LABEL_MAP
    ensures ToUpper(k) in {NEGATIVE, NEUTRAL, POSITIVE} ==> LABEL_MAP[k] == ToUpper(k)
  {
    var u := ToUpper(k);
    assert u[0] == UpperChar(k[0]);
  }

  /**
   * A generic label in mixed case is not in the table: it is uppercased to
   * "LABEL_0" and is then outside the scalar map, so it scores 0.
   */
  lemma MixedCaseGenericLabel()
    ensures NormalizeLabel("Label_0") == "LABEL_0"
    ensures SentimentScalar(NormalizeLabel("Label_0")) == 0
  {
    assert ToUpper("Label_0") == "LABEL_0";
  }

  /** `scalar_map.get(std_label, 0)`. */
  function SentimentScalar(std: string): (s: int)
    ensures -1 <= s <= 1
    ensures s == 1 <==> std == POSITIVE
    ensures s == -1 <==> std == NEGATIVE
  {
    if std in SCALAR_MAP then SCALAR_MAP[std] else 0
  }

  // ---------------------------------------------------------------------
  // Integrity score and the analysis

  /**
   * `s_value * (1.0 - noise_prob)`: zero for a zero scalar, at most 1 in
   * magnitude, and of the scalar's sign unless the text is all noise.
   */
  function IntegrityScore(scalar: int, noise: real): (r: real)
    ensures scalar == 0 ==> r == 0.0
    ensures -1 <= scalar <= 1 && 0.0 <= noise <= 1.0 ==> -1.0 <= r <= 1.0
    ensures -1 <= scalar <= 1 && noise < 1.0 ==> (r > 0.0 <==> scalar > 0) && (r < 0.0 <==> scalar < 0)
    ensures noise == 1.0 ==> r == 0.0
  {
    var r := scalar as real * (1.0 - noise);
    assert scalar == 1 ==> r == 1.0 - noise;
    assert scalar == -1 ==> r == noise - 1.0;
    r
  }

  /** `TruthEngineAI.analyze` with the classifier passed in. */
  function Analyze(classify: string -> Classification, text: string): (a: Analysis)
    ensures a.confidence == classify(Truncate(text)).score
    ensures a.sentimentLabel == NormalizeLabel(classify(Truncate(text)).rawLabel)
    ensures a.noiseProbability == NoiseProbability(Truncate(text))
    ensures a.integrityScore
            == SentimentScalar(a.sentimentLabel) as real * (1.0 - a.noiseProbability)
  {
    var safeText := Truncate(text);
    var result := classify(safeText);
    var std := NormalizeLabel(result.rawLabel);
    var noise := NoiseProbability(safeText);
    Analysis(std, result.score, noise, IntegrityScore(SentimentScalar(std), noise))
  }

  /**
   * What `analyze` promises about its score: bounded by 1, zero for a
   * neutral or unknown label and for an empty text, and otherwise of the
   * label's sign.
   */
  lemma AnalysisBounds(classify: string -> Classification, text: string)
    ensures 0.0 <= Analyze(classify, text).noiseProbability <= 1.0
    ensures -1.0 <= Analyze(classify, text).integrityScore <= 1.0
    ensures Analyze(classify, text).sentimentLabel !in {NEGATIVE, POSITIVE}
            ==> Analyze(classify, text).integrityScore == 0.0
    ensures text == [] ==> Analyze(classify, text).integrityScore == 0.0
    ensures text != [] ==>
              var a := Analyze(classify, text);
              (a.integrityScore > 0.0 <==> a.sentimentLabel == POSITIVE)
              && (a.integrityScore < 0.0 <==> a.sentimentLabel == NEGATIVE)
  {
    var a := Analyze(classify, text);
    var s := SentimentScalar(a.sentimentLabel);
    assert a.integrityScore == IntegrityScore(s, a.noiseProbability);
    if text != [] {
      assert Truncate(text) != [];
      assert a.noiseProbability < 1.0;
    }
  }

  /** Characters after the first 512 never change the analysis. */
  lemma AnalyzeIgnoresTail(classify: string -> Classification, text: string, tail: string)
    requires |text| >= MAX_INPUT
    ensures Analyze(classify, text + tail) == Analyze(classify, text)
  {
    assert (text + tail)[..MAX_INPUT] == text[..MAX_INPUT];
    assert Truncate(text + tail) == Truncate(text);
  }

  /**
   * A shouting text with more than three `!` gets both penalties: noise 0.7,
   * so a NEGATIVE classification scores -0.3 with the classifier's
   * confidence passed through.
   */
  lemma HypeDiscounted(classify: string -> Classification, text: string, confidence: real)
    requires 0 < |text| <= MAX_INPUT
    requires 100 * UpperCount(text) > 15 * |text|
    requires ExclamationCount(text) > EXCLAMATION_LIMIT
    requires classify(text) == Classification(NEGATIVE, confidence)
    ensures Analyze(classify, text) == Analysis(NEGATIVE, confidence, 0.7, -0.3)
  {
    NoiseTerms(text);
    CanonicalLabelsFixed(NEGATIVE);
  }

  /** A calm text classified NEUTRAL has noise 0 and integrity 0. */
  lemma CalmNeutral(classify: string -> Classification, text: string, confidence: real)
    requires 0 < |text| <= MAX_INPUT
    requires 100 * UpperCount(text) <= 15 * |text|
    requires ExclamationCount(text) <= EXCLAMATION_LIMIT
    requires classify(text) == Classification(NEUTRAL, confidence)
    ensures Analyze(classify, text) == Analysis(NEUTRAL, confidence, 0.0, 0.0)
  {
    NoiseTerms(text);
    CanonicalLabelsFixed(NEUTRAL);
  }
}

=== FILE: wrappers.dfy ===
/** Optional values: Python's `None` versus a present value. */
module Wrappers {

  datatype Option<+T> = None | Some(value: T)
}
